=== FILE: README.md ===
# Telegram media downloader: a Dafny model of its input handling

The downloader (`app.py`) asks the operator for a channel or group
reference, lists the messages of that chat, asks which ones to download and
saves the document attachments of the chosen messages. This project models
the parts of that program that are pure logic and proves what they do:

- **Reference handling** (`Reference`): `clean_link` (drop the web client
  prefix up to the last `#`, or reduce a link mentioning `joinchat` to its
  last path segment), `validate_input` (full-string match against six
  shapes: `https://t.me/+<word>`, `https://t.me/joinchat/<word>`,
  `https://t.me/<word>`, `https://web.telegram.org/k/#<signed number>`,
  `@<word>`, `<signed number>`), and the first lines of `main`, which strip,
  clean and then validate the entered text (`Resolve`).
- **The selection prompt** (`Selection`): the answer `q`/`Q` quits and
  `t`/`T` takes every listed message. Any other answer is a comma-separated
  list of indices and `a-b` ranges, which is turned into message ids
  (`ParseSelection`). The prompt is repeated after a malformed answer
  (`AwaitSelection`).
- **Listing and file names** (`Media`): the entry shown for each fetched
  message, and the name a document is saved under. That name is the
  document's own file name if it has one, else `document_<document id>.mp4`.
- **The Python built-ins these rely on** (`Text`, `Decimal`): `str.strip()`,
  `str.split(sep)`, `split(sep)[-1]`, `in` on strings, `int()` on a base-10
  string and `str()` on an integer. They are modelled on ASCII text.

Facts proved about the program include the following:

- A web client link with a numeric id resolves to the bare id.
- After cleaning, the web client pattern of `validate_input` can never
  match.
- An invite link `https://t.me/joinchat/<token>` is accepted only when the
  token is all digits.
- A `t.me` channel whose name contains `joinchat` is always rejected.
- The selection keeps token order and keeps duplicates: `2,1-2` gives the
  second, first and second ids.
- A range `a-b` is inclusive, and when `a > b` it selects nothing without
  being an error.
- Indices that name no listed message are dropped silently.
- An empty token, a negative index, a token with two `-` or a missing range
  side rejects the whole answer.
- `q` and `t` are ordinary (bad) tokens inside a comma list.

Behaviour of the code that is easy to miss:

- **Duplicates are kept.** The selection is not deduplicated: `2,1-2`
  selects the second, the first and again the second id
  (`RepeatedSelectionKept`, `KeptCounts`).
- **An empty selection is accepted.** An answer that selects nothing, such
  as index 0 or a range `a-b` with `a > b`, ends the prompt loop; the
  download loop then has nothing to do (`SelectListNumber`,
  `SelectListRange`).
- **An invalid reference ends the program.** `main` prints a message and
  returns; it does not ask again. `Resolve` returns `None` for it.
- **Cleaning before validating rejects some accepted shapes:**
  - invite links whose token is not all digits (`InviteLinkResolved`);
  - channel links whose name contains `joinchat`
    (`ChannelMentioningJoinchatRejected`);
  - `+` invite links whose hash contains `joinchat`: cleaning cuts them
    down to `+<hash>`, which has none of the six shapes
    (`InviteHashMentioningJoinchatRejected`).
- **The web client branch of `clean_link` can yield an invite link.** For
  example, `https://web.telegram.org/k/#https://t.me/joinchat/123` is
  cleaned to `https://t.me/joinchat/123`. That branch is the only way the
  invite-link shape survives cleaning (`CleanedNeverWebClient`).

## Model

| member | source | states |
|---|---|---|
| Text.TrimStart | app.py:148 | the result is a suffix of the input, every removed character is whitespace, and the result does not start with whitespace |
| Text.TrimEnd | app.py:148 | the result is a prefix of the input, every removed character is whitespace, and the result does not end with whitespace |
| Text.Strip | app.py:148 | `strip()`: the result has no whitespace at either end and is no longer than the input; unpadded text is unchanged |
| Text.StripEmptyOnlyIfBlank | app.py:170 | `strip()` leaves nothing only of text made of whitespace alone |
| Text.StripInfix | app.py:170 | `strip()` leaves a contiguous run of the input |
| Text.Split | app.py:181 | `split(sep)` yields at least one piece, no piece holds the separator, and joining the pieces with the separator gives back the input |
| Text.SplitJoin | app.py:181 | splitting separator-free pieces joined by the separator gives back exactly those pieces |
| Text.SplitCount | app.py:185 | `split(sep)` yields one piece more than there are separators |
| Text.SplitWithout | app.py:184-188 | text without the separator splits into itself alone |
| Text.SplitConcat | app.py:181 | splitting `a + sep + b` yields the pieces of `a` followed by the pieces of `b` |
| Text.AfterLast | app.py:55 | `split(sep)[-1]` is a suffix of the input without the separator, preceded by the separator unless it is the whole input |
| Text.AfterLastOf | app.py:56-58 | the part after the last separator of `p + sep + q`, where `q` has no separator, is `q` |
| Decimal.ParseInt | app.py:185-188 | `int()` succeeds only on text holding a digit, and on text without a `-` its value is non-negative |
| Decimal.ParseIntIff | app.py:185-188 | `int(s)` gives `n` exactly when `s`, stripped of blanks, is digit groups (single underscores between digits) after an optional `+` or `-`, denoting `n` with the sign applied; every other text is a `ValueError` |
| Decimal.ParseDigits | app.py:188 | a plain run of digits parses to the number it denotes |
| Decimal.NatStr | app.py:86 | the digits of a natural number: non-empty, no leading zero, denoting the number |
| Decimal.Str | app.py:86 | `str(n)` is non-empty, has a `-` exactly when `n < 0`, and `int(str(n)) == n`; its digits never start with a zero unless `n` is zero, and a negative number is a `-` directly followed by those digits |
| Decimal.StrInjective | app.py:86 | distinct integers print differently |
| Decimal.StrCanonical | app.py:86 | `str(n)` is the only text of its printed shape that `int()` reads as `n`, so zero-padded, `+`-signed, underscored or blank-padded spellings are never produced |
| Reference.MatchesAny | app.py:48-51 | the loop over the patterns answers true exactly when some listed pattern matches |
| Reference.ValidateInput | app.py:38-51 | true exactly when the link matches one of the six shapes (allowing one final line feed, as `$` does) |
| Reference.AnyPatternListed | app.py:40-47 | all six shapes are in the tried list, so trying the list is the same as asking for some shape |
| Reference.CleanLink | app.py:53-59 | a web client link keeps what follows its last `#`; otherwise a link mentioning `joinchat` keeps what follows its last `/`; anything else is unchanged; the result is always a suffix of the input |
| Reference.Resolve | app.py:148-153 | an accepted reference validates, is no longer than the entered text, and never has the web client shape |
| Reference.CleanedNeverWebClient | app.py:44 | no cleaned text has the web client shape, and the invite-link shape survives cleaning only from a web client link |
| Reference.WordValidIffNumber | app.py:40-47 | a bare word is accepted exactly when it is all digits |
| Reference.StripKeepsWordEnd | app.py:148 | text beginning with a word character, `@` or `-` and ending with a word character is unchanged by `strip()` |
| Reference.CleanWebClient | app.py:55-56 | cleaning a web client link with a numeric id gives the id |
| Reference.WebClientIdResolved | app.py:148-153 | a web client link with a signed numeric id is accepted as the bare id |
| Reference.WebClientExample | app.py:44 | the web client link to chat `-123` is accepted as `-123` |
| Reference.CleanInviteLink | app.py:57-58 | cleaning an invite link gives its token |
| Reference.InviteLinkResolved | app.py:148-153 | an invite link is accepted exactly when its token is all digits, and then as that token |
| Reference.MentioningJoinchatNotNumber | app.py:57 | a word containing `joinchat` is not a number |
| Reference.ChannelMentioningJoinchatRejected | app.py:148-153 | a channel link whose name contains `joinchat` is always rejected |
| Reference.InviteHashMentioningJoinchatRejected | app.py:148-153 | a `+` invite link whose hash contains `joinchat` is always rejected, because cleaning leaves `+<hash>` |
| Reference.PlusNotValid | app.py:41-46 | text beginning with `+` matches none of the six patterns |
| Reference.UntouchedShapeResolved | app.py:148-153 | a `+` invite link, channel link, username or numeric id that does not mention `joinchat` is accepted exactly as entered |
| Selection.Range | app.py:186 | `range(lo, hi)` holds `hi - lo` ascending consecutive values starting at `lo`, and nothing when `lo >= hi` |
| Selection.ParseToken | app.py:184-188 | an accepted token expands to non-negative, ascending, consecutive indices; an accepted token without `-` gives exactly one index |
| Selection.ManyDashesRejected | app.py:185 | a token with two or more `-` does not unpack into two integers and is rejected |
| Selection.PlainToken | app.py:188 | a token without `-` is accepted exactly when `int()` accepts it, and then stands for the one index `int()` reads |
| Selection.ConcatFailsIffSomeFails | app.py:183-188 | the expansion fails exactly when one token fails, wherever it stands |
| Selection.ConcatAppend | app.py:183-188 | expanding two runs of tokens concatenates their expansions, and fails if either fails |
| Selection.ExpandFailsIffBadToken | app.py:181-188 | the answer's expansion fails exactly when it has a bad token |
| Selection.ExpandAppend | app.py:181-188 | expanding concatenated token lists concatenates the expansions |
| Selection.Select | app.py:191 | every selected id is a listed id; when all indices are in range each index `i` gives `ids[i-1]` in order; indices out of range give nothing |
| Selection.Kept | app.py:191 | the kept indices are exactly the in-range ones: each lies in 1..n and comes from the expansion, and every in-range index of the expansion is kept |
| Selection.KeptCounts | app.py:191 | an in-range index is kept as many times as it was expanded: nothing is deduplicated |
| Selection.SelectIsKeptLookup | app.py:191 | the selection is the listed id `ids[i-1]` of every in-range index `i`, in expansion order; indices 0 or above the count are dropped |
| Selection.SelectAppend | app.py:191 | selecting from concatenated index lists concatenates the selections |
| Selection.SelectList | app.py:180-194 | the comma list never quits; it is malformed exactly when a token is bad; otherwise it selects listed ids |
| Selection.ParseSelection | app.py:170-194 | the answer quits exactly when it strips to `q` or `Q`; `t` or `T` selects every listed id in order; any selection holds only listed ids |
| Selection.ParseSelectionList | app.py:170-194 | any answer that does not strip to `q`, `Q`, `t` or `T` is read exactly as the comma list of its stripped text |
| Selection.SelectListConcat | app.py:181-192 | the answer `x,y` selects what `x` selects followed by what `y` selects, and is malformed if either is |
| Selection.SelectRange | app.py:186-191 | a range selects the contiguous run of listed ids it overlaps, clipped to the listed indices |
| Selection.DashToken | app.py:184-186 | a token `a-b` is a range exactly when both sides are integers |
| Selection.NumberToken | app.py:188 | an unsigned number is a token of one index |
| Selection.RangeToken | app.py:185-186 | `a-b` on unsigned numbers is `range(a, b + 1)` |
| Selection.SingleToken | app.py:181-191 | an answer without a comma is one token: malformed if the token is bad, else its indices mapped to ids |
| Selection.SelectListNumber | app.py:188-191 | one index selects its listed id, or nothing (not an error) when it is 0 or above the count |
| Selection.SelectListRange | app.py:184-191 | `a-b` selects the listed ids at `a..b` ascending, and nothing (not an error) when `a > b` |
| Selection.ExtraDashMalformed | app.py:185 | a token with more than one `-` (such as `1-2-3`) rejects the answer |
| Selection.WordMalformed | app.py:188 | a token without digits or `-` (such as `abc`) rejects the answer |
| Selection.MissingSideMalformed | app.py:185 | a range with an empty side (`-5`, `5-`) rejects the answer |
| Selection.BadSideMalformed | app.py:181-188 | a bad token on either side of a comma rejects the whole answer |
| Selection.EmptyMalformed | app.py:188 | the empty answer is rejected |
| Selection.TrailingCommaMalformed | app.py:181-188 | an answer ending in a comma (`3,`) is rejected |
| Selection.LeadingCommaMalformed | app.py:181-188 | an answer starting with a comma is rejected |
| Selection.EmptyTokenMalformed | app.py:181-188 | an empty token between two commas (`1,,2`) rejects the answer |
| Selection.EmptyBetweenMalformed | app.py:181-188 | any text of the form `x,,y` is rejected |
| Selection.ControlWordInListMalformed | app.py:172-188 | `q`, `Q`, `t` or `T` beside a comma is a bad token, not a control word |
| Selection.NegativeIndexMalformed | app.py:184-185 | a negative index rejects the answer instead of being dropped |
| Selection.AllIsFullRange | app.py:176-177 | `t` selects the same as the range from 1 to the number of listed messages; `T` selects every listed id |
| Selection.RepeatedSelectionKept | app.py:181-191 | `2,1-2` selects the second, the first and again the second listed id |
| Selection.NumberThenRange | app.py:181-191 | a number followed by a range selects the number's id followed by the range's ids |
| Selection.TwoNumbersThenRange | app.py:181-191 | two listed indices and then a range select the two ids followed by the range's clipped run |
| Selection.PromptExample | app.py:170-191 | the prompt's own example `10,15,18-30`, typed as the answer, selects the 10th and 15th ids, then the 18th to the 30th in order |
| Selection.AwaitSelection | app.py:169-194 | the loop decides on the first answer that is not malformed, and every earlier answer was malformed; it waits on (decides nothing) only when every answer so far was malformed |
| Media.FileName | app.py:86 | a non-empty own name is kept; otherwise the name is `document_`, then exactly `str(document id)`, then `.mp4`, and the middle parses back to the document id; never empty |
| Media.SyntheticNamesDistinct | app.py:86 | two unnamed documents share a synthetic name only if they have the same id |
| Media.DownloadName | app.py:85-86 | a message has a download name exactly when it carries a document; the name is the document's own name when that is given, and otherwise exactly `document_` + `str(document id)` + `.mp4` |
| Media.ShownText | app.py:90 | the shown text is the message's own text when that is non-empty, and otherwise exactly `No text` |
| Media.ListEntry | app.py:85-92 | the entry keeps the message id, shows `text or "No text"`, and names the download name, so a file exactly when the message carries a document |
| Media.Listing | app.py:80-92 | one entry per fetched message, in fetch order, with the message's id |
| Media.Attached | app.py:118-120 | a message contributes one file name exactly when it carries a document, and that name is its download name |
| Media.Downloads | app.py:115-132 | at most one saved file per message, none with an empty name |
| Media.DownloadsMatchListing | app.py:86 | the files saved for all listed messages are exactly the names the listing showed, in order |
| Media.DownloadsAppend | app.py:115 | downloading two runs of messages saves the files of the first run, then those of the second |
| Media.DownloadsComplete | app.py:118-120 | every document among the messages is saved |
| Media.DownloadsSound | app.py:118-120 | every saved file is the download name of one of the messages |

## Left out

- Configuration loading (`config.json`, `API_ID`, `API_HASH`, `SESSION_NAME`, `PATH_DOWNLOAD`): this is file and JSON input at import time.
- `fetch_messages`: entity resolution, `ImportChatInviteRequest`, message iteration, flood-wait sleeps and the error messages are network calls into Telethon. Only the entry built for each message is modelled (`Media.ListEntry`), with the fetched messages as a parameter.
- `download_media`: directory creation, the log file, the per-message fetch, the progress bar, the file write and the error handling are I/O. Only which messages produce a file, and under which name, is modelled (`Media.Downloads`). The messages are taken as already fetched.
- The `input`/`print` calls of `main` and the `TelegramClient` context: the operator's answers are a parameter (`answers` of `Selection.AwaitSelection`), and printing is omitted. The "no messages found" exit is left out because it depends only on what `fetch_messages` returns.
- Text is modelled on ASCII. `str.strip()` removes characters 9-13, 28-31 and 32. `int()` skips characters 9-13 and 32. `lower()` is modelled only through its effect on `q`/`t`. `\w` is `[A-Za-z0-9_]` and `\d` is `[0-9]`. Unicode whitespace, Unicode digits and Unicode word characters are not modelled.
- `int()`'s limit of 4300 digits is not modelled: longer literals parse here, where Python raises `ValueError`.
- Decimal.ParseInt: its own contract gives only necessary conditions for success; which texts `int()` accepts, and with what value, is stated in both directions by `Decimal.ParseIntIff`.
- Selection.ParseToken: its own contract describes only accepted tokens; when a token is accepted and which indices it denotes is stated by `Selection.PlainToken`, `Selection.DashToken` and `Selection.ManyDashesRejected`.
- Selection.SelectList: a range too long to build is not modelled as a crash. In app.py:186, `extend(range(a, b + 1))` raises `OverflowError` when the range has more than 2^63 - 1 values, and `MemoryError` when it does not fit in memory; `main` does not catch either. Here such an answer yields a selection. The memory bound depends on the machine.
- Selection.SelectListRange: states a selection for every `a-b`, including ranges too long to build, for the reason given under `Selection.SelectList`.
- Selection.NumberThenRange: likewise for the range part, for the reason given under `Selection.SelectList`.
- Selection.TwoNumbersThenRange: likewise for the range part, for the reason given under `Selection.SelectList`.
- Selection.AwaitSelection: an answer holding a range too long to build decides here, where the program crashes, for the reason given under `Selection.SelectList`.
- Selection.AwaitSelection: the program waits forever for a decision; the model reads a finite list of answers and returns `None` when they run out before one.
- Text.Strip: its contract does not restate that the result is the contiguous middle of the input; that is stated by `Text.TrimStart` and `Text.TrimEnd`, of which it is the composition.
- Media.Downloads: the contract does not cover what happens when a message cannot be fetched again at download time; that is I/O.
- The program's `or` at app.py:86 and :120 treats a file name of `None` and `""` alike; both are modelled (`Media.Given`). Whether Telethon can return either is not modelled.

=== FILE: decimal.dfy ===
/**
 Python's `int(s)` on a base-10 ASCII string and `str(n)` on an integer:
 the two conversions the selection parser and the synthesised file name use.
 */
module Decimal {
  import opened Optional
  import opened Text

  /** The whitespace `int()` skips around an ASCII literal: tab, line feed,
      vertical tab, form feed, carriage return and space. Unlike `str.strip()`
      it does not skip 0x1C-0x1F. */
  const IntSpaces: set<char> := {'\t', '\n', '\U{000B}', '\U{000C}', '\r', ' '}

  predicate IsDigit(c: char) {
    '0' <= c <= '9'
  }

  predicate AllDigits(s: string) {
    forall k :: 0 <= k < |s| ==> IsDigit(s[k])
  }

  function DigitValue(c: char): nat
    requires IsDigit(c)
  {
    c as int - '0' as int
  }

  function DigitChar(d: nat): (c: char)
    requires d < 10
    ensures IsDigit(c) && DigitValue(c) == d
  {
    ('0' as int + d) as char
  }

  /** The number a run of decimal digits denotes, most significant first. */
  function DigitsValue(s: string): nat
    requires AllDigits(s)
  {
    if |s| == 0 then 0 else DigitsValue(s[..|s| - 1]) * 10 + DigitValue(s[|s| - 1])
  }

  /** The body `int()` accepts after the sign: digits, where single
      underscores may separate two digits (so the text starts and ends with
      a digit and never holds two underscores in a row). Leading zeros are
      allowed. */
  predicate IsDigitGroups(s: string) {
    && |s| > 0
    && IsDigit(s[0])
    && IsDigit(s[|s| - 1])
    && (forall k :: 0 <= k < |s| ==> IsDigit(s[k]) || s[k] == '_')
    && !Contains(s, "__")
  }

  /** A run of digits holds no underscore pair. */
  lemma DigitsNoUnderscorePair(s: string)
    requires AllDigits(s)
    ensures !Contains(s, "__")
  {
    forall i | 0 <= i <= |s| - 2
      ensures !OccursAt(s, "__", i)
    {
      assert IsDigit(s[i]);
      assert s[i..i + 2][0] == s[i];
    }
  }

  /** The digits of `s` with its underscores left out, in order. */
  function DropUnderscores(s: string): (r: string)
    requires forall k :: 0 <= k < |s| ==> IsDigit(s[k]) || s[k] == '_'
    ensures AllDigits(r) && |r| <= |s|
    ensures AllDigits(s) ==> r == s
  {
    if |s| == 0 then ""
    else (if s[0] == '_' then "" else [s[0]]) + DropUnderscores(s[1..])
  }

  /** `int(s)`: `Some(n)` for the integer `s` denotes, `None` where Python
      raises `ValueError`. The surrounding whitespace is skipped first. */
  function ParseInt(s: string): (r: Option<int>)
    ensures r.Some? ==> exists k :: 0 <= k < |s| && IsDigit(s[k])
    ensures r.Some? && '-' !in s ==> r.value >= 0
  {
    StripInfix(s, IntSpaces);
    ParseLiteral(Strip(s, IntSpaces))
  }

  /** The literal `int()` accepts once whitespace is gone: an optional `+`
      or `-` followed by digit groups. */
  function ParseLiteral(t: string): (r: Option<int>)
    ensures r.Some? ==> exists k :: 0 <= k < |t| && IsDigit(t[k])
    ensures r.Some? && '-' !in t ==> r.value >= 0
  {
    if |t| > 0 && (t[0] == '+' || t[0] == '-') then
      var body := t[1..];
      if IsDigitGroups(body) then
        assert body[0] == t[1];
        var n: int := DigitsValue(DropUnderscores(body));
        Some(if t[0] == '-' then -n else n)
      else None
    else if IsDigitGroups(t) then
      Some(DigitsValue(DropUnderscores(t)))
    else None
  }

  /** `t` is an integer literal of value `n` as `int()` reads it once the
      surrounding whitespace is gone: digit groups, possibly after a `+` or
      a `-`, with the sign applied to their value. */
  predicate IsIntLiteral(t: string, n: int) {
    || (IsDigitGroups(t) && n == DigitsValue(DropUnderscores(t)))
    || (|t| > 0 && t[0] == '+' && IsDigitGroups(t[1..]) && n == DigitsValue(DropUnderscores(t[1..])))
    || (|t| > 0 && t[0] == '-' && IsDigitGroups(t[1..]) && n == -(DigitsValue(DropUnderscores(t[1..])) as int))
  }

  /** `int(s)` succeeds with `n` exactly when `s`, stripped of the
      whitespace `int()` skips, is a literal of value `n`. Surrounding
      blanks, a `+` sign, leading zeros and single underscores between digits
      are therefore accepted; anything else makes `int()` raise. */
  lemma ParseIntIff(s: string, n: int)
    ensures ParseInt(s) == Some(n) <==> IsIntLiteral(Strip(s, IntSpaces), n)
  {
    LiteralIff(Strip(s, IntSpaces), n);
  }

  lemma LiteralIff(t: string, n: int)
    ensures ParseLiteral(t) == Some(n) <==> IsIntLiteral(t, n)
  {
    if |t| > 0 && (t[0] == '+' || t[0] == '-') {
      assert !IsDigit(t[0]);
      assert !IsDigitGroups(t);
      if IsDigitGroups(t[1..]) {
        var m: int := DigitsValue(DropUnderscores(t[1..]));
        assert ParseLiteral(t) == Some(if t[0] == '-' then -m else m);
      } else {
        assert ParseLiteral(t) == None;
      }
    } else if IsDigitGroups(t) {
      assert ParseLiteral(t) == Some(DigitsValue(DropUnderscores(t)));
    } else {
      assert ParseLiteral(t) == None;
    }
  }

  /** A plain run of digits parses to the number it denotes. */
  lemma ParseDigits(s: string)
    requires |s| > 0 && AllDigits(s)
    ensures ParseInt(s) == Some(DigitsValue(s))
  {
    assert IsDigit(s[0]) && IsDigit(s[|s| - 1]);
    UnpaddedLiteral(s);
    DigitsLiteral(s);
  }

  lemma DigitsLiteral(s: string)
    requires |s| > 0 && AllDigits(s)
    ensures ParseLiteral(s) == Some(DigitsValue(s))
  {
    assert IsDigit(s[0]) && IsDigit(s[|s| - 1]);
    DigitsNoUnderscorePair(s);
    assert IsDigitGroups(s);
    assert DropUnderscores(s) == s;
  }

  /** Digits as `str()` prints a natural number: at least one, and no
      leading zero unless the number is zero itself. */
  predicate Canonical(d: string) {
    |d| > 0 && AllDigits(d) && (d[0] == '0' ==> |d| == 1)
  }

  /** The text `str(n)` can take for some integer: canonical digits,
      possibly after a minus sign that is not followed by a zero. */
  predicate StrShaped(t: string) {
    || Canonical(t)
    || (|t| > 1 && t[0] == '-' && t[1] != '0' && Canonical(t[1..]))
  }

  /** The decimal digits of `n` without leading zeros: `str(n)` for `n >= 0`. */
  function NatStr(n: nat): (r: string)
    ensures |r| > 0 && AllDigits(r)
    ensures DigitsValue(r) == n
    ensures r[0] == '0' ==> n == 0
    ensures Canonical(r)
  {
    if n < 10 then [DigitChar(n)]
    else
      var r := NatStr(n / 10) + [DigitChar(n % 10)];
      assert r[..|r| - 1] == NatStr(n / 10);
      r
  }

  /** `str(n)`: an optional minus sign, then the digits of `|n|`. */
  function Str(n: int): (r: string)
    ensures r != []
    ensures '-' in r <==> n < 0
    ensures n >= 0 ==> AllDigits(r)
    ensures ParseInt(r) == Some(n)
    ensures n >= 0 ==> Canonical(r)
    ensures n < 0 ==> |r| > 1 && r[0] == '-' && r[1] != '0' && Canonical(r[1..])
  {
    if n < 0 then
      ParseNegative(NatStr(-n));
      "-" + NatStr(-n)
    else
      ParseDigits(NatStr(n));
      NatStr(n)
  }

  /** `str(n)` is the only text of its shape that `int()` reads as `n`:
      leading zeros, a `+` sign, underscores and blanks are all accepted by
      `int()` but never printed. */
  lemma StrCanonical(t: string, n: int)
    ensures StrShaped(t) && ParseInt(t) == Some(n) ==> t == Str(n)
  {
    if StrShaped(t) && ParseInt(t) == Some(n) {
      if Canonical(t) {
        PrintedDigits(t, n);
      } else {
        var d := t[1..];
        assert t == "-" + d;
        PrintedSigned(d, n);
      }
    }
  }

  lemma PrintedDigits(d: string, n: int)
    requires Canonical(d) && ParseInt(d) == Some(n)
    ensures d == Str(n)
  {
    ParseDigits(d);
    NatStrUnique(d);
  }

  lemma PrintedSigned(d: string, n: int)
    requires Canonical(d) && d[0] != '0' && ParseInt("-" + d) == Some(n)
    ensures "-" + d == Str(n)
  {
    ParseNegative(d);
    PrintedNegative(d, n);
  }

  lemma PrintedNegative(d: string, n: int)
    requires Canonical(d) && d[0] != '0' && n == -(DigitsValue(d) as int)
    ensures "-" + d == Str(n)
  {
    LeadingDigitPositive(d);
    NatStrUnique(d);
    assert Str(n) == "-" + NatStr(-n);
  }

  /** Canonical digits are the printed form of the number they denote. */
  lemma {:induction false} NatStrUnique(d: string)
    requires Canonical(d)
    ensures d == NatStr(DigitsValue(d))
  {
    var v := DigitsValue(d);
    var last := d[|d| - 1];
    if |d| == 1 {
      assert DigitsValue(d[..0]) == 0;
      assert v == DigitValue(last);
      DigitCharOf(last);
      assert d == [last];
    } else {
      var p := d[..|d| - 1];
      assert p[0] == d[0];
      LeadingDigitPositive(p);
      NatStrUnique(p);
      assert v / 10 == DigitsValue(p) && v % 10 == DigitValue(last);
      DigitCharOf(last);
      assert d == p + [last];
    }
  }

  /** Digits that do not start with a zero denote a positive number. */
  lemma {:induction false} LeadingDigitPositive(d: string)
    requires |d| > 0 && AllDigits(d) && d[0] != '0'
    ensures DigitsValue(d) > 0
  {
    if |d| > 1 {
      var p := d[..|d| - 1];
      assert p[0] == d[0];
      LeadingDigitPositive(p);
    }
  }

  /** A minus sign followed by digits parses to the negated value. */
  lemma ParseNegative(d: string)
    requires |d| > 0 && AllDigits(d)
    ensures ParseInt("-" + d) == Some(-(DigitsValue(d) as int))
  {
    NegativeUnpadded(d);
    NegativeDigits(d);
  }

  lemma NegativeDigits(d: string)
    requires |d| > 0 && AllDigits(d)
    ensures ParseLiteral("-" + d) == Some(-(DigitsValue(d) as int))
  {
    assert IsDigit(d[0]) && IsDigit(d[|d| - 1]);
    DigitsNoUnderscorePair(d);
    assert IsDigitGroups(d);
    NegativeLiteral(d);
  }

  lemma NegativeUnpadded(d: string)
    requires |d| > 0 && AllDigits(d)
    ensures ParseInt("-" + d) == ParseLiteral("-" + d)
  {
    var s := "-" + d;
    assert s[|s| - 1] == d[|d| - 1];
    UnpaddedLiteral(s);
  }

  /** Without surrounding whitespace, `int()` sees the literal as it is. */
  lemma UnpaddedLiteral(s: string)
    requires |s| > 0 && (IsDigit(s[0]) || s[0] == '-') && IsDigit(s[|s| - 1])
    ensures ParseInt(s) == ParseLiteral(s)
  {
    assert s[0] !in IntSpaces && s[|s| - 1] !in IntSpaces;
  }

  lemma NegativeLiteral(d: string)
    requires IsDigitGroups(d)
    ensures ParseLiteral("-" + d) == Some(-(DigitsValue(DropUnderscores(d)) as int))
  {
    assert ("-" + d)[1..] == d;
  }

  /** `str(n)` of a two-digit number is its tens digit then its units digit. */
  lemma TwoDigits(n: nat, t: string)
    requires 10 <= n < 100 && |t| == 2 && IsDigit(t[0]) && IsDigit(t[1])
    requires DigitValue(t[0]) == n / 10 && DigitValue(t[1]) == n % 10
    ensures Str(n) == t
  {
    var p := t[..1];
    assert p[0] == t[0] && p[..0] == [];
    assert DigitsValue(p[..0]) == 0;
    assert DigitsValue(p) == n / 10;
    assert DigitsValue(t) == n;
    NatStrUnique(t);
  }

  lemma DigitCharOf(c: char)
    requires IsDigit(c)
    ensures DigitChar(DigitValue(c)) == c
  {
  }

  /** Distinct integers print differently. */
  lemma StrInjective(a: int, b: int)
    requires Str(a) == Str(b)
    ensures a == b
  {
    assert Some(a) == ParseInt(Str(a)) == ParseInt(Str(b)) == Some(b);
  }
}

=== FILE: media.dfy ===
/**
 The messages the downloader lists and the files it saves. Only document
 attachments are downloadable; a document keeps its own file name, and one
 without a name is saved as `document_<document id>.mp4`.
 */
module Media {
  import opened Optional
  import opened Text
  import opened Decimal

  /** What a message carries. Photos, polls, web pages and the like are all
      `OtherMedia`: the downloader treats them alike. */
  datatype Attachment =
    | NoMedia
    | Document(fileName: Option<string>, documentId: int)
    | OtherMedia

  datatype Message = Message(id: int, text: Option<string>, media: Attachment)

  /** One line of the listing shown before the selection prompt. */
  datatype Entry = Entry(id: int, text: string, fileName: Option<string>)

  const SyntheticStem := "document_"
  const SyntheticExtension := ".mp4"

  /** A name Python treats as true: present and not empty. */
  predicate Given(name: Option<string>) {
    name.Some? && name.value != ""
  }

  /** `message.file.name or f"document_{id}.mp4"`: the own name when it is
      given, else the stem, the printed id and the extension. */
  function FileName(name: Option<string>, documentId: int): (r: string)
    ensures r != ""
    ensures Given(name) ==> r == name.value
    ensures !Given(name) ==>
              && StartsWith(r, SyntheticStem)
              && |r| > |SyntheticStem| + |SyntheticExtension|
              && r[|r| - |SyntheticExtension|..] == SyntheticExtension
              && ParseInt(r[|SyntheticStem|..|r| - |SyntheticExtension|]) == Some(documentId)
    ensures !Given(name) ==> r[|SyntheticStem|..|r| - |SyntheticExtension|] == Str(documentId)
  {
    if Given(name) then name.value
    else
      var digits := Str(documentId);
      Framed(SyntheticStem, digits, SyntheticExtension);
      SyntheticStem + digits + SyntheticExtension
  }

  /** The parts of `pre + mid + post` are where they were put. */
  lemma Framed(pre: string, mid: string, post: string)
    ensures var r := pre + mid + post;
            && StartsWith(r, pre)
            && |r| == |pre| + |mid| + |post|
            && r[|r| - |post|..] == post
            && r[|pre|..|r| - |post|] == mid
  {
    var r := pre + mid + post;
    assert r[..|pre|] == pre;
    assert r[|r| - |post|..] == post;
    assert r[|pre|..|r| - |post|] == mid;
  }

  /** Two unnamed documents get the same synthetic name only when they are
      the same document. */
  lemma SyntheticNamesDistinct(a: int, b: int)
    requires FileName(None, a) == FileName(None, b)
    ensures a == b
  {
    var ra, rb := FileName(None, a), FileName(None, b);
    assert ParseInt(ra[|SyntheticStem|..|ra| - |SyntheticExtension|]) == Some(a);
    assert ParseInt(rb[|SyntheticStem|..|rb| - |SyntheticExtension|]) == Some(b);
  }

  /** The name the downloader shows and saves for a message's attachment;
      `None` when there is nothing to download. */
  function DownloadName(m: Message): (r: Option<string>)
    ensures r.Some? <==> m.media.Document?
    ensures r.Some? ==> r.value != ""
    ensures m.media.Document? && Given(m.media.fileName) ==> r == m.media.fileName
    ensures m.media.Document? && !Given(m.media.fileName) ==>
              r == Some(SyntheticStem + Str(m.media.documentId) + SyntheticExtension)
  {
    match m.media
    case Document(name, documentId) => Some(FileName(name, documentId))
    case _ => None
  }

  /** `message.text or "No text"`. */
  function ShownText(text: Option<string>): (r: string)
    ensures r != ""
    ensures Given(text) ==> r == text.value
    ensures !Given(text) ==> r == "No text"
  {
    if Given(text) then text.value else "No text"
  }

  /** The listing entry of one fetched message. */
  function ListEntry(m: Message): (e: Entry)
    ensures e.id == m.id
    ensures e.text != ""
    ensures e.fileName.Some? <==> m.media.Document?
    ensures e.text == ShownText(m.text) && e.fileName == DownloadName(m)
  {
    Entry(m.id, ShownText(m.text), DownloadName(m))
  }

  /** The listing of the fetched messages, in fetch order. */
  function Listing(ms: seq<Message>): (r: seq<Entry>)
    ensures |r| == |ms|
    ensures forall k :: 0 <= k < |ms| ==> r[k].id == ms[k].id
  {
    seq(|ms|, k requires 0 <= k < |ms| => ListEntry(ms[k]))
  }

  /** The files `download_media` saves for the given messages, in order:
      one per document, none for any other message. */
  function Downloads(ms: seq<Message>): (r: seq<string>)
    ensures |r| <= |ms|
    ensures forall k :: 0 <= k < |r| ==> r[k] != ""
  {
    if |ms| == 0 then []
    else
      var first, rest := Attached(ms[0]), Downloads(ms[1..]);
      assert |first| <= 1 && |rest| <= |ms| - 1;
      assert forall k :: 0 <= k < |first| ==> first[k] != "";
      first + rest
  }

  /** The names present in a run of listing entries, in order. */
  function ListedNames(entries: seq<Entry>): seq<string> {
    if |entries| == 0 then []
    else
      var rest := ListedNames(entries[1..]);
      match entries[0].fileName
      case Some(name) => [name] + rest
      case None => rest
  }

  /** Downloading every listed message saves exactly the files the listing
      named, in listing order: the fetch and the download use one rule. */
  lemma {:induction false} DownloadsMatchListing(ms: seq<Message>)
    ensures Downloads(ms) == ListedNames(Listing(ms))
  {
    if |ms| > 0 {
      DownloadsMatchListing(ms[1..]);
      ListingStep(ms);
      ListedNamesStep(Listing(ms));
    }
  }

  /** Downloading a concatenation saves the files of both parts, in order. */
  lemma {:induction false} DownloadsAppend(a: seq<Message>, b: seq<Message>)
    ensures Downloads(a + b) == Downloads(a) + Downloads(b)
  {
    if |a| > 0 {
      assert (a + b)[0] == a[0] && (a + b)[1..] == a[1..] + b;
      DownloadsAppend(a[1..], b);
    } else {
      assert a + b == b;
    }
  }

  /** Every document among the messages is saved. */
  lemma {:induction false} DownloadsComplete(ms: seq<Message>)
    ensures forall k :: 0 <= k < |ms| && ms[k].media.Document? ==> DownloadName(ms[k]).value in Downloads(ms)
  {
    if |ms| > 0 {
      DownloadsComplete(ms[1..]);
      var first, rest := Attached(ms[0]), Downloads(ms[1..]);
      assert Downloads(ms) == first + rest;
      forall k | 0 <= k < |ms| && ms[k].media.Document?
        ensures DownloadName(ms[k]).value in Downloads(ms)
      {
        if k > 0 {
          assert ms[k] == ms[1..][k - 1];
          assert DownloadName(ms[k]).value in rest;
        } else {
          assert first == [DownloadName(ms[0]).value];
        }
      }
    }
  }

  /** Every saved file is the download name of one of the messages. */
  lemma {:induction false} DownloadsSound(ms: seq<Message>)
    ensures forall name :: name in Downloads(ms) ==>
              exists k :: 0 <= k < |ms| && DownloadName(ms[k]) == Some(name)
  {
    if |ms| > 0 {
      DownloadsSound(ms[1..]);
      forall name | name in Downloads(ms)
        ensures exists k :: 0 <= k < |ms| && DownloadName(ms[k]) == Some(name)
      {
        if name in Downloads(ms[1..]) {
          var k :| 0 <= k < |ms[1..]| && DownloadName(ms[1..][k]) == Some(name);
          assert DownloadName(ms[k + 1]) == Some(name);
        } else {
          assert DownloadName(ms[0]) == Some(name);
        }
      }
    }
  }

  /** The download name of one message as a list of at most one name. */
  function Attached(m: Message): (r: seq<string>)
    ensures |r| <= 1
    ensures |r| == 1 <==> m.media.Document?
    ensures |r| == 1 ==> DownloadName(m) == Some(r[0])
  {
    match DownloadName(m)
    case Some(name) => [name]
    case None => []
  }

  lemma ListingStep(ms: seq<Message>)
    requires |ms| > 0
    ensures Listing(ms) == [ListEntry(ms[0])] + Listing(ms[1..])
  {
    assert Listing(ms)[1..] == Listing(ms[1..]);
  }

  lemma ListedNamesStep(entries: seq<Entry>)
    requires |entries| > 0
    ensures ListedNames(entries) ==
              (if entries[0].fileName.Some? then [entries[0].fileName.value] else []) + ListedNames(entries[1..])
  {
  }
}

=== FILE: optional.dfy ===
/** A value that may be absent: Python's `None` versus a present value. */
module Optional {

  datatype Option<+T> = None | Some(value: T)
}

=== FILE: reference.dfy ===
/**
 The channel reference the operator types in: `clean_link` (strip a web
 client prefix, or reduce an invite link to its token), `validate_input`
 (full match against six accepted shapes) and the way `main` strips, cleans
 and then validates the entered text.
 */
module Reference {
  import opened Optional
  import opened Text
  import opened Decimal

  const TmePrefix := "https://t.me/"
  const InviteHashPrefix := "https://t.me/+"
  const InviteLinkPrefix := "https://t.me/joinchat/"
  const WebClientPrefix := "https://web.telegram.org/k/#"

  /** `\w` on ASCII: letters, digits and underscore. */
  predicate IsWordChar(c: char) {
    ('a' <= c <= 'z') || ('A' <= c <= 'Z') || IsDigit(c) || c == '_'
  }

  /** `\w+`. */
  predicate IsWord(s: string) {
    |s| > 0 && forall k :: 0 <= k < |s| ==> IsWordChar(s[k])
  }

  /** `\d+`. */
  predicate IsNumber(s: string) {
    |s| > 0 && AllDigits(s)
  }

  /** `-?\d+`. */
  predicate IsSignedNumber(s: string) {
    IsNumber(s) || (|s| > 0 && s[0] == '-' && IsNumber(s[1..]))
  }

  /** The six accepted reference shapes, in the order they are tried. */
  datatype Pattern =
    | InviteHash      // https://t.me/+<word>
    | InviteLink      // https://t.me/joinchat/<word>
    | ChannelLink     // https://t.me/<word>
    | WebClientLink   // https://web.telegram.org/k/#<signed number>
    | Username        // @<word>
    | NumericId       // <signed number>

  const Patterns: seq<Pattern> :=
    [InviteHash, InviteLink, ChannelLink, WebClientLink, Username, NumericId]

  /** `s` is exactly of shape `p`. */
  predicate Fits(p: Pattern, s: string) {
    match p
    case InviteHash => StartsWith(s, InviteHashPrefix) && IsWord(s[|InviteHashPrefix|..])
    case InviteLink => StartsWith(s, InviteLinkPrefix) && IsWord(s[|InviteLinkPrefix|..])
    case ChannelLink => StartsWith(s, TmePrefix) && IsWord(s[|TmePrefix|..])
    case WebClientLink => StartsWith(s, WebClientPrefix) && IsSignedNumber(s[|WebClientPrefix|..])
    case Username => |s| > 0 && s[0] == '@' && IsWord(s[1..])
    case NumericId => IsSignedNumber(s)
  }

  /** `re.match('^' + p + '$', s)`: `$` also matches just before a final
      line feed, so `s` may carry one after the shape. */
  predicate Matches(p: Pattern, s: string) {
    Fits(p, s) || (|s| > 0 && s[|s| - 1] == '\n' && Fits(p, s[..|s| - 1]))
  }

  /** Tries the patterns of `ps` in order and stops at the first match. */
  function MatchesAny(ps: seq<Pattern>, s: string): (r: bool)
    ensures r <==> exists k :: 0 <= k < |ps| && Matches(ps[k], s)
  {
    if |ps| == 0 then false
    else if Matches(ps[0], s) then true
    else
      var r := MatchesAny(ps[1..], s);
      assert forall k :: 1 <= k < |ps| ==> ps[k] == ps[1..][k - 1];
      r
  }

  /** `validate_input(link)`: true exactly when the whole of `link` has one of
      the six accepted shapes. */
  function ValidateInput(link: string): (r: bool)
    ensures r <==> exists p: Pattern :: Matches(p, link)
  {
    AnyPatternListed(link);
    MatchesAny(Patterns, link)
  }

  /** Every shape is tried, so trying the list is the same as asking for
      some shape. */
  lemma AnyPatternListed(link: string)
    ensures MatchesAny(Patterns, link) <==> exists p: Pattern :: Matches(p, link)
  {
    forall p: Pattern | Matches(p, link)
      ensures MatchesAny(Patterns, link)
    {
      assert Matches(Patterns[PatternIndex(p)], link);
    }
  }

  /** Where `p` sits in `Patterns`. */
  function PatternIndex(p: Pattern): (k: nat)
    ensures k < |Patterns| && Patterns[k] == p
  {
    match p
    case InviteHash => 0
    case InviteLink => 1
    case ChannelLink => 2
    case WebClientLink => 3
    case Username => 4
    case NumericId => 5
  }

  /** `clean_link(link)`: a web client link keeps what follows its last `#`;
      otherwise a link mentioning `joinchat` keeps what follows its last `/`;
      anything else is returned unchanged. */
  function CleanLink(link: string): (r: string)
    ensures |r| <= |link| && r == link[|link| - |r|..]
    ensures StartsWith(link, WebClientPrefix) ==>
              |r| < |link| && '#' !in r && link[|link| - |r| - 1] == '#'
    ensures !StartsWith(link, WebClientPrefix) && Contains(link, "joinchat") ==>
              '/' !in r && (r == link || link[|link| - |r| - 1] == '/')
    ensures !StartsWith(link, WebClientPrefix) && !Contains(link, "joinchat") ==> r == link
  {
    if StartsWith(link, WebClientPrefix) then
      var r := AfterLast(link, '#');
      assert link[|WebClientPrefix| - 1] == WebClientPrefix[|WebClientPrefix| - 1] == '#';
      r
    else if Contains(link, "joinchat") then AfterLast(link, '/')
    else link
  }

  /** The first lines of `main`: the entered text is stripped, cleaned and
      validated; `None` stands for "invalid link or identifier", after which
      the program ends. */
  function Resolve(entered: string): (r: Option<string>)
    ensures r.Some? ==> |r.value| <= |entered| && ValidateInput(r.value)
    ensures r.Some? ==> !Matches(WebClientLink, r.value)
  {
    var link := CleanLink(Strip(entered, StrSpaces));
    CleanedNeverWebClient(Strip(entered, StrSpaces));
    if ValidateInput(link) then Some(link) else None
  }

  /** The literal text every match of `p` begins with. */
  function PatternPrefix(p: Pattern): string {
    match p
    case InviteHash => InviteHashPrefix
    case InviteLink => InviteLinkPrefix
    case ChannelLink => TmePrefix
    case WebClientLink => WebClientPrefix
    case Username => "@"
    case NumericId => ""
  }

  /** A match of `p` begins with the pattern's literal prefix, trailing line
      feed or not. */
  lemma MatchStartsWithPrefix(p: Pattern, s: string)
    requires Matches(p, s)
    ensures StartsWith(s, PatternPrefix(p))
  {
    if !Fits(p, s) {
      var t := s[..|s| - 1];
      assert StartsWith(t, PatternPrefix(p));
      assert s[..|PatternPrefix(p)|] == t[..|PatternPrefix(p)|];
    }
  }

  /** What a web-client-shaped string must contain. */
  lemma WebClientShapeMarks(r: string)
    requires Matches(WebClientLink, r)
    ensures StartsWith(r, WebClientPrefix) && r[6] == '/' && r[27] == '#'
  {
    MatchStartsWithPrefix(WebClientLink, r);
    assert WebClientPrefix[6] == '/' && WebClientPrefix[27] == '#';
    assert r[6] == r[..|WebClientPrefix|][6] && r[27] == r[..|WebClientPrefix|][27];
  }

  /** What an invite-link-shaped string must contain. */
  lemma InviteLinkShapeMarks(r: string)
    requires Matches(InviteLink, r)
    ensures r[6] == '/' && Contains(r, "joinchat")
  {
    MatchStartsWithPrefix(InviteLink, r);
    assert InviteLinkPrefix[6] == '/' && InviteLinkPrefix[13..21] == "joinchat";
    assert r[6] == r[..|InviteLinkPrefix|][6];
    assert r[13..21] == r[..|InviteLinkPrefix|][13..21];
    OccursContains(r, "joinchat", 13);
  }

  /** Whatever is entered, the cleaned text never has the web client shape:
      that pattern of `validate_input` is dead once `clean_link` has run. The
      invite link shape survives cleaning only through the web client branch
      (a web client link whose tail is itself an invite link). */
  lemma CleanedNeverWebClient(s: string)
    ensures !Matches(WebClientLink, CleanLink(s))
    ensures Matches(InviteLink, CleanLink(s)) ==> StartsWith(s, WebClientPrefix)
  {
    var r := CleanLink(s);
    assert Matches(WebClientLink, r) ==> '#' in r && '/' in r && StartsWith(r, WebClientPrefix) by {
      if Matches(WebClientLink, r) {
        WebClientShapeMarks(r);
      }
    }
    assert Matches(InviteLink, r) ==> '/' in r && Contains(r, "joinchat") by {
      if Matches(InviteLink, r) {
        InviteLinkShapeMarks(r);
      }
    }
  }

  /** A bare word is accepted only as a numeric id: it cannot start a link or
      a username, and it carries no line feed. */
  lemma WordValidIffNumber(t: string)
    requires IsWord(t)
    ensures ValidateInput(t) <==> IsNumber(t)
  {
    assert !(t[|t| - 1] == '\n');
    forall p: Pattern | Matches(p, t)
      ensures IsNumber(t)
    {
      MatchStartsWithPrefix(p, t);
      if p != NumericId && p != Username {
        assert PatternPrefix(p)[5] == ':';
        assert t[5] == t[..|PatternPrefix(p)|][5];
      }
    }
    if IsNumber(t) {
      assert Matches(NumericId, t);
    }
  }

  /** Text that starts with a word character, `@` or `-` and ends with a
      word character survives `strip()` unchanged. */
  lemma StripKeepsWordEnd(s: string)
    requires |s| > 0 && (IsWordChar(s[0]) || s[0] in "@-") && IsWordChar(s[|s| - 1])
    ensures Strip(s, StrSpaces) == s
  {
  }

  /** A link prefix followed by a word or a number survives `strip()`. */
  lemma StripLink(prefix: string, w: string)
    requires |prefix| > 0 && prefix[0] == 'h'
    requires |w| > 0 && IsWordChar(w[|w| - 1])
    ensures Strip(prefix + w, StrSpaces) == prefix + w
  {
    var s := prefix + w;
    assert s[|s| - 1] == w[|w| - 1];
    StripKeepsWordEnd(s);
  }

  /** `main`'s verdict once stripping is known to change nothing and the
      cleaned text is known. */
  lemma ResolveCleaned(s: string, cleaned: string)
    requires Strip(s, StrSpaces) == s && CleanLink(s) == cleaned
    ensures Resolve(s) == (if ValidateInput(cleaned) then Some(cleaned) else None)
  {
  }

  /** Cleaning a web client link keeps the id after the `#`. */
  lemma CleanWebClient(d: string)
    requires IsSignedNumber(d)
    ensures CleanLink(WebClientPrefix + d) == d
  {
    var s := WebClientPrefix + d;
    assert StartsWith(s, WebClientPrefix);
    assert WebClientPrefix == "https://web.telegram.org/k/" + "#";
    assert s == "https://web.telegram.org/k/" + "#" + d;
    AfterLastOf("https://web.telegram.org/k/", d, '#');
  }

  lemma NumericIdValid(d: string)
    requires IsSignedNumber(d)
    ensures ValidateInput(d)
  {
    assert Matches(NumericId, d);
  }

  /** A web client link with a numeric id is accepted, as the bare id. */
  lemma WebClientIdResolved(d: string)
    requires IsSignedNumber(d)
    ensures Resolve(WebClientPrefix + d) == Some(d)
  {
    StripLink(WebClientPrefix, d);
    CleanWebClient(d);
    NumericIdValid(d);
    ResolveCleaned(WebClientPrefix + d, d);
  }

  /** A web client link to chat -123 resolves to "-123". */
  lemma WebClientExample()
    ensures Resolve(WebClientPrefix + "-123") == Some("-123")
  {
    assert IsSignedNumber("-123") by {
      assert "-123"[1..] == "123";
    }
    WebClientIdResolved("-123");
  }

  /** A `t.me` link is not a web client link. */
  lemma TmeNotWebClient(s: string)
    requires StartsWith(s, TmePrefix)
    ensures !StartsWith(s, WebClientPrefix)
  {
    assert s[8] == s[..|TmePrefix|][8] == 't';
    assert WebClientPrefix[8] == 'w';
  }

  /** Cleaning a `t.me/<path>/<word>` link that mentions `joinchat` keeps the
      final word. */
  lemma CleanJoinchatWord(head: string, w: string)
    requires StartsWith(head + "/" + w, TmePrefix) && Contains(head + "/" + w, "joinchat")
    requires IsWord(w)
    ensures CleanLink(head + "/" + w) == w
  {
    TmeNotWebClient(head + "/" + w);
    assert '/' !in w by {
      forall k | 0 <= k < |w| ensures w[k] != '/' {
        assert IsWordChar(w[k]);
      }
    }
    AfterLastOf(head, w, '/');
  }

  lemma CleanInviteLink(t: string)
    requires IsWord(t)
    ensures CleanLink(InviteLinkPrefix + t) == t
  {
    var s := InviteLinkPrefix + t;
    assert s[13..21] == "joinchat";
    OccursContains(s, "joinchat", 13);
    assert s == "https://t.me/joinchat" + "/" + t;
    CleanJoinchatWord("https://t.me/joinchat", t);
  }

  /** An invite link `https://t.me/joinchat/<token>` is accepted only when the
      token is all digits (and then as a numeric id): cleaning reduces it to
      the bare token before validation. */
  lemma InviteLinkResolved(t: string)
    requires IsWord(t)
    ensures Resolve(InviteLinkPrefix + t) == (if IsNumber(t) then Some(t) else None)
  {
    InviteLinkResolvedAs(t, InviteLinkPrefix + t);
  }

  lemma InviteLinkResolvedAs(t: string, s: string)
    requires IsWord(t) && s == InviteLinkPrefix + t
    ensures Resolve(s) == (if IsNumber(t) then Some(t) else None)
  {
    StripLink(InviteLinkPrefix, t);
    CleanInviteLink(t);
    ResolveCleaned(s, t);
    WordValidIffNumber(t);
  }

  lemma CleanChannelMentioningJoinchat(w: string)
    requires IsWord(w) && Contains(w, "joinchat")
    ensures CleanLink(TmePrefix + w) == w
  {
    var s := TmePrefix + w;
    var i :| 0 <= i <= |w| - 8 && OccursAt(w, "joinchat", i);
    assert s[13 + i..21 + i] == w[i..i + 8];
    OccursContains(s, "joinchat", 13 + i);
    assert s == "https://t.me" + "/" + w;
    CleanJoinchatWord("https://t.me", w);
  }

  /** A word mentioning `joinchat` is not a number. */
  lemma MentioningJoinchatNotNumber(w: string)
    requires Contains(w, "joinchat")
    ensures !IsNumber(w)
  {
    var i :| 0 <= i <= |w| - 8 && OccursAt(w, "joinchat", i);
    assert w[i] == w[i..i + 8][0] == 'j';
  }

  /** A channel link whose name mentions `joinchat` is always refused: the
      name is cut out as if it were an invite token, and a name with letters
      is not a numeric id. */
  lemma ChannelMentioningJoinchatRejected(w: string)
    requires IsWord(w) && Contains(w, "joinchat")
    ensures Resolve(TmePrefix + w) == None
  {
    StripLink(TmePrefix, w);
    CleanChannelMentioningJoinchat(w);
    MentioningJoinchatNotNumber(w);
    WordValidIffNumber(w);
    ResolveCleaned(TmePrefix + w, w);
  }

  /** Cleaning a `+` invite link whose hash mentions `joinchat` keeps the
      hash with its `+`. */
  lemma CleanInviteHashMentioningJoinchat(w: string)
    requires IsWord(w) && Contains(w, "joinchat")
    ensures CleanLink(InviteHashPrefix + w) == "+" + w
  {
    var s := InviteHashPrefix + w;
    InviteHashMentionsJoinchat(w);
    assert s[..|TmePrefix|] == TmePrefix;
    TmeNotWebClient(s);
    SignedWordNoSlash(w);
    assert s == "https://t.me" + "/" + ("+" + w);
    AfterLastOf("https://t.me", "+" + w, '/');
  }

  lemma InviteHashMentionsJoinchat(w: string)
    requires Contains(w, "joinchat")
    ensures Contains(InviteHashPrefix + w, "joinchat")
  {
    var s := InviteHashPrefix + w;
    var i :| 0 <= i <= |w| - 8 && OccursAt(w, "joinchat", i);
    assert s[14 + i..22 + i] == w[i..i + 8];
    OccursContains(s, "joinchat", 14 + i);
  }

  lemma SignedWordNoSlash(w: string)
    requires IsWord(w)
    ensures '/' !in "+" + w
  {
    forall k | 1 <= k < |w| + 1 ensures ("+" + w)[k] != '/' {
      assert ("+" + w)[k] == w[k - 1];
      assert IsWordChar(w[k - 1]);
    }
  }

  /** Text that begins with `+` has none of the accepted shapes. */
  lemma PlusNotValid(t: string)
    requires |t| > 0 && t[0] == '+'
    ensures !ValidateInput(t)
  {
    forall p: Pattern
      ensures !Matches(p, t)
    {
      if Matches(p, t) {
        MatchStartsWithPrefix(p, t);
      }
    }
  }

  /** A `+` invite link whose hash mentions `joinchat` is always refused:
      cleaning cuts it down to `+<hash>`, which has no accepted shape. */
  lemma InviteHashMentioningJoinchatRejected(w: string)
    requires IsWord(w) && Contains(w, "joinchat")
    ensures Resolve(InviteHashPrefix + w) == None
  {
    InviteHashRejectedAs(w, InviteHashPrefix + w);
  }

  lemma InviteHashRejectedAs(w: string, s: string)
    requires IsWord(w) && Contains(w, "joinchat") && s == InviteHashPrefix + w
    ensures Resolve(s) == None
  {
    StripLink(InviteHashPrefix, w);
    CleanedInviteHashInvalid(w);
    ResolveCleaned(s, CleanLink(s));
  }

  lemma CleanedInviteHashInvalid(w: string)
    requires IsWord(w) && Contains(w, "joinchat")
    ensures !ValidateInput(CleanLink(InviteHashPrefix + w))
  {
    CleanInviteHashMentioningJoinchat(w);
    PlusNotValid("+" + w);
  }

  lemma StripUntouchedShape(p: Pattern, s: string)
    requires p in {InviteHash, ChannelLink, Username, NumericId}
    requires Fits(p, s)
    ensures Strip(s, StrSpaces) == s
  {
    assert s[|s| - 1] == s[|PatternPrefix(p)|..][|s| - |PatternPrefix(p)| - 1] || p == NumericId;
    StripKeepsWordEnd(s);
  }

  lemma CleanUntouchedShape(p: Pattern, s: string)
    requires p in {InviteHash, ChannelLink, Username, NumericId}
    requires Fits(p, s) && !Contains(s, "joinchat")
    ensures CleanLink(s) == s
  {
    if p == InviteHash || p == ChannelLink {
      assert StartsWith(s, TmePrefix) by {
        assert s[..|TmePrefix|] == s[..|PatternPrefix(p)|][..|TmePrefix|];
      }
      TmeNotWebClient(s);
    }
  }

  lemma FitsValid(p: Pattern, s: string)
    requires Fits(p, s)
    ensures ValidateInput(s)
  {
    assert Matches(p, s);
  }

  /** The shapes cleaning leaves alone: a `+` invite link, a channel link, a
      username or a numeric id that does not mention `joinchat` is accepted
      exactly as entered. */
  lemma UntouchedShapeResolved(p: Pattern, s: string)
    requires p in {InviteHash, ChannelLink, Username, NumericId}
    requires Fits(p, s) && !Contains(s, "joinchat")
    ensures Resolve(s) == Some(s)
  {
    StripUntouchedShape(p, s);
    CleanUntouchedShape(p, s);
    FitsValid(p, s);
    ResolveCleaned(s, s);
  }
}

=== FILE: selection.dfy ===
/**
 The selection prompt of `main`: the operator answers with `q` to quit, `t`
 for every listed message, or a comma-separated list of 1-based display
 indices and `a-b` ranges, which becomes the list of message ids to
 download. Any token that is not an integer or a well-formed range rejects
 the whole answer, and the prompt is shown again.
 */
module Selection {
  import opened Optional
  import opened Text
  import opened Decimal

  /** The outcome of one answer to the prompt. */
  datatype Choice =
    | Quit                      // `q`: leave the program
    | Selected(ids: seq<int>)   // message ids to download, in order
    | Malformed                 // `ValueError`: ask again

  /** `range(lo, hi)`: lo, lo + 1, ..., hi - 1, and nothing when lo >= hi. */
  function Range(lo: int, hi: int): (r: seq<int>)
    ensures |r| == if lo <= hi then hi - lo else 0
    ensures forall k :: 0 <= k < |r| ==> r[k] == lo + k
    decreases hi - lo
  {
    if lo >= hi then [] else [lo] + Range(lo + 1, hi)
  }

  /** The indices one comma-separated token stands for: a token holding `-`
      must split into exactly two integers `a` and `b` and stands for
      `range(a, b + 1)`; any other token must be one integer. `None` is the
      `ValueError` Python raises. */
  function ParseToken(tok: string): (r: Option<seq<int>>)
    ensures r.Some? ==> forall k :: 0 <= k < |r.value| ==> r.value[k] >= 0
    ensures r.Some? ==> forall k :: 0 <= k < |r.value| ==> r.value[k] == r.value[0] + k
    ensures r.Some? && '-' !in tok ==> |r.value| == 1
  {
    if '-' in tok then
      var parts := Split(tok, '-');
      if |parts| != 2 then None
      else
        match (ParseInt(parts[0]), ParseInt(parts[1]))
        case (Some(a), Some(b)) => Some(Range(a, b + 1))
        case _ => None
    else
      match ParseInt(tok)
      case Some(i) => Some([i])
      case None => None
  }

  /** A token with two or more `-` does not unpack into two integers. */
  lemma ManyDashesRejected(tok: string)
    requires multiset(tok)['-'] > 1
    ensures ParseToken(tok).None?
  {
    SplitCount(tok, '-');
  }

  /** Every token parsed on its own. */
  function ParseTokens(toks: seq<string>): (parsed: seq<Option<seq<int>>>)
    ensures |parsed| == |toks|
    ensures forall k :: 0 <= k < |toks| ==> parsed[k] == ParseToken(toks[k])
  {
    seq(|toks|, k requires 0 <= k < |toks| => ParseToken(toks[k]))
  }

  /** The parsed tokens' indices one after the other; `None` when any token
      failed. */
  function Concat(parsed: seq<Option<seq<int>>>): Option<seq<int>> {
    if |parsed| == 0 then Some([])
    else
      match parsed[0]
      case None => None
      case Some(head) =>
        match Concat(parsed[1..])
        case None => None
        case Some(tail) => Some(head + tail)
  }

  /** The indices of all tokens, in token order, or `None` when some token
      is bad (Python stops at the first bad one, with the same result). */
  function ExpandTokens(toks: seq<string>): Option<seq<int>> {
    Concat(ParseTokens(toks))
  }

  /** Concatenation fails exactly when some part failed: one failure is
      enough, wherever it stands. */
  lemma {:induction false} ConcatFailsIffSomeFails(parsed: seq<Option<seq<int>>>)
    ensures Concat(parsed).None? <==> exists k :: 0 <= k < |parsed| && parsed[k].None?
  {
    if |parsed| > 0 {
      ConcatFailsIffSomeFails(parsed[1..]);
      assert forall k :: 1 <= k < |parsed| ==> parsed[k] == parsed[1..][k - 1];
      if exists k :: 0 <= k < |parsed[1..]| && parsed[1..][k].None? {
        var k :| 0 <= k < |parsed[1..]| && parsed[1..][k].None?;
        assert parsed[k + 1].None?;
      }
    }
  }

  /** Concatenating two runs of parsed tokens concatenates their results. */
  lemma {:induction false} ConcatAppend(a: seq<Option<seq<int>>>, b: seq<Option<seq<int>>>)
    ensures Concat(a + b) ==
              if Concat(a).Some? && Concat(b).Some?
              then Some(Concat(a).value + Concat(b).value)
              else None
    decreases |a|
  {
    if |a| > 0 {
      assert (a + b)[0] == a[0] && (a + b)[1..] == a[1..] + b;
      if a[0].Some? {
        ConcatAppend(a[1..], b);
        var ea, eb := Concat(a[1..]), Concat(b);
        if ea.Some? && eb.Some? {
          assert a[0].value + (ea.value + eb.value) == (a[0].value + ea.value) + eb.value;
        }
      }
    } else {
      assert a + b == b;
      assert Concat(b).Some? ==> [] + Concat(b).value == Concat(b).value;
    }
  }

  /** Some token of `toks` is neither an integer nor a well-formed range. */
  predicate HasBadToken(toks: seq<string>) {
    exists k :: 0 <= k < |toks| && ParseToken(toks[k]).None?
  }

  /** The expansion fails exactly when some token is bad. */
  lemma ExpandFailsIffBadToken(toks: seq<string>)
    ensures ExpandTokens(toks).None? <==> HasBadToken(toks)
  {
    ConcatFailsIffSomeFails(ParseTokens(toks));
  }

  /** Expanding concatenated token lists concatenates the expansions. */
  lemma ExpandAppend(a: seq<string>, b: seq<string>)
    ensures ExpandTokens(a + b) ==
              if ExpandTokens(a).Some? && ExpandTokens(b).Some?
              then Some(ExpandTokens(a).value + ExpandTokens(b).value)
              else None
  {
    assert ParseTokens(a + b) == ParseTokens(a) + ParseTokens(b);
    ConcatAppend(ParseTokens(a), ParseTokens(b));
  }

  /** `[ids[i - 1] for i in indices if 1 <= i <= len(ids)]`: display indices
      to message ids, dropping indices that name no listed message. */
  function Select(indices: seq<int>, ids: seq<int>): (r: seq<int>)
    ensures |r| <= |indices|
    ensures forall k :: 0 <= k < |r| ==> r[k] in ids
    ensures (forall j :: 0 <= j < |indices| ==> 1 <= indices[j] <= |ids|) ==>
              |r| == |indices| && forall k :: 0 <= k < |r| ==> r[k] == ids[indices[k] - 1]
    ensures (forall j :: 0 <= j < |indices| ==> !(1 <= indices[j] <= |ids|)) ==> r == []
  {
    if |indices| == 0 then []
    else
      var rest := Select(indices[1..], ids);
      assert forall j :: 1 <= j < |indices| ==> indices[j] == indices[1..][j - 1];
      Pick(indices[0], ids) + rest
  }

  /** The id at display index `i`, or nothing when `i` names no listed
      message. */
  function Pick(i: int, ids: seq<int>): seq<int> {
    if 1 <= i <= |ids| then [ids[i - 1]] else []
  }

  /** The indices that name a listed message when `n` messages are listed,
      in their original order and with their repetitions. */
  function Kept(indices: seq<int>, n: nat): (r: seq<int>)
    ensures |r| <= |indices|
    ensures forall k :: 0 <= k < |r| ==> 1 <= r[k] <= n && r[k] in indices
    ensures forall j :: 0 <= j < |indices| && 1 <= indices[j] <= n ==> indices[j] in r
  {
    if |indices| == 0 then []
    else
      var rest := Kept(indices[1..], n);
      assert forall j :: 1 <= j < |indices| ==> indices[j] == indices[1..][j - 1];
      (if 1 <= indices[0] <= n then [indices[0]] else []) + rest
  }

  /** Nothing is deduplicated: an in-range index occurs in `Kept` exactly as
      often as in the expanded indices. */
  lemma {:induction false} KeptCounts(indices: seq<int>, n: nat, i: int)
    requires 1 <= i <= n
    ensures multiset(Kept(indices, n))[i] == multiset(indices)[i]
  {
    if |indices| > 0 {
      KeptCounts(indices[1..], n, i);
      var first, tail := [indices[0]], indices[1..];
      var head := if 1 <= indices[0] <= n then first else [];
      var rest := Kept(tail, n);
      assert Kept(indices, n) == head + rest;
      assert indices == first + tail;
      assert multiset(indices) == multiset(first) + multiset(tail);
      assert multiset(head + rest) == multiset(head) + multiset(rest);
      assert multiset(head)[i] == multiset(first)[i];
    }
  }

  /** The listed id at each display index, all of which name a listed
      message. */
  function Lookup(kept: seq<int>, ids: seq<int>): (r: seq<int>)
    requires forall k :: 0 <= k < |kept| ==> 1 <= kept[k] <= |ids|
    ensures |r| == |kept|
    ensures forall k :: 0 <= k < |r| ==> r[k] == ids[kept[k] - 1]
  {
    seq(|kept|, k requires 0 <= k < |kept| => ids[kept[k] - 1])
  }

  /** The comprehension filters, then maps: the selection is the listed id
      of every in-range index, in index order, repetitions kept, and every
      index outside 1..|ids| is dropped. */
  lemma {:induction false} SelectIsKeptLookup(indices: seq<int>, ids: seq<int>)
    ensures Select(indices, ids) == Lookup(Kept(indices, |ids|), ids)
  {
    if |indices| > 0 {
      SelectIsKeptLookup(indices[1..], ids);
      var head := if 1 <= indices[0] <= |ids| then [indices[0]] else [];
      var rest := Kept(indices[1..], |ids|);
      LookupAppend(head, rest, ids);
      assert Lookup(head, ids) == Pick(indices[0], ids);
    }
  }

  lemma LookupAppend(a: seq<int>, b: seq<int>, ids: seq<int>)
    requires forall k :: 0 <= k < |a| ==> 1 <= a[k] <= |ids|
    requires forall k :: 0 <= k < |b| ==> 1 <= b[k] <= |ids|
    ensures Lookup(a + b, ids) == Lookup(a, ids) + Lookup(b, ids)
  {
    var l, r := Lookup(a + b, ids), Lookup(a, ids) + Lookup(b, ids);
    assert |l| == |r|;
    forall k | 0 <= k < |l|
      ensures l[k] == r[k]
    {
      if k < |a| {
        assert (a + b)[k] == a[k];
      } else {
        assert (a + b)[k] == b[k - |a|];
      }
    }
  }

  /** The `try` block of the prompt loop: split the answer on commas, expand
      every token, and map the surviving indices to message ids. */
  function SelectList(answer: string, ids: seq<int>): (r: Choice)
    ensures r != Quit
    ensures r.Malformed? <==> HasBadToken(Split(answer, ','))
    ensures r.Selected? ==> forall k :: 0 <= k < |r.ids| ==> r.ids[k] in ids
  {
    var toks := Split(answer, ',');
    ExpandFailsIffBadToken(toks);
    match ExpandTokens(toks)
    case None => Malformed
    case Some(indices) => Selected(Select(indices, ids))
  }

  /** One answer to the prompt. The stripped answer `q` or `Q` quits, `t` or
      `T` takes every listed id in listing order; anything else goes through
      the token list, where neither word is special. */
  function ParseSelection(answer: string, ids: seq<int>): (r: Choice)
    ensures r.Quit? <==> Strip(answer, StrSpaces) in {"q", "Q"}
    ensures Strip(answer, StrSpaces) in {"t", "T"} ==> r == Selected(ids)
    ensures r.Selected? ==> forall k :: 0 <= k < |r.ids| ==> r.ids[k] in ids
  {
    var sel := Strip(answer, StrSpaces);
    if sel == "q" || sel == "Q" then Quit
    else if sel == "t" || sel == "T" then Selected(ids)
    else SelectList(sel, ids)
  }

  /** Any answer other than the four control words is read, once stripped,
      as a comma list of tokens. */
  lemma ParseSelectionList(answer: string, ids: seq<int>)
    requires Strip(answer, StrSpaces) !in {"q", "Q", "t", "T"}
    ensures ParseSelection(answer, ids) == SelectList(Strip(answer, StrSpaces), ids)
  {
  }

  /** The answer to a comma-joined pair of token lists, from the answers to
      each: a bad token on either side rejects both. */
  function Combine(left: Choice, right: Choice): Choice {
    if left.Selected? && right.Selected? then Selected(left.ids + right.ids) else Malformed
  }

  /** Selecting from concatenated index lists concatenates the selections. */
  lemma {:induction false} SelectAppend(a: seq<int>, b: seq<int>, ids: seq<int>)
    ensures Select(a + b, ids) == Select(a, ids) + Select(b, ids)
    decreases |a|
  {
    if |a| > 0 {
      calc {
        Select(a + b, ids);
        { assert (a + b)[0] == a[0] && (a + b)[1..] == a[1..] + b; }
        Pick(a[0], ids) + Select(a[1..] + b, ids);
        { SelectAppend(a[1..], b, ids); }
        Pick(a[0], ids) + (Select(a[1..], ids) + Select(b, ids));
      }
    } else {
      assert a + b == b;
    }
  }

  /** Output order follows token order, and a bad token anywhere rejects the
      whole answer: the answer `x,y` is the answer `x` followed by the answer
      `y`. Nothing is deduplicated. */
  lemma SelectListConcat(x: string, y: string, ids: seq<int>)
    ensures SelectList(x + "," + y, ids) == Combine(SelectList(x, ids), SelectList(y, ids))
  {
    SplitConcat(x, y, ',');
    ExpandAppend(Split(x, ','), Split(y, ','));
    var ex, ey := ExpandTokens(Split(x, ',')), ExpandTokens(Split(y, ','));
    if ex.Some? && ey.Some? {
      SelectAppend(ex.value, ey.value, ids);
    }
  }

  /** The listed ids at display indices `lo` up to `hi - 1`, clipped to the
      indices that name a listed message. */
  function ListedRun(lo: int, hi: int, ids: seq<int>): seq<int> {
    var first := if lo < 1 then 1 else lo;
    var last := if hi > |ids| + 1 then |ids| + 1 else hi;
    if first < last then ids[first - 1..last - 1] else []
  }

  /** A range selects the contiguous run of listed ids it overlaps: the
      indices below 1 or above the number of listed messages are dropped. */
  lemma {:induction false} SelectRange(lo: int, hi: int, ids: seq<int>)
    ensures Select(Range(lo, hi), ids) == ListedRun(lo, hi, ids)
    decreases hi - lo
  {
    if lo < hi {
      SelectRange(lo + 1, hi, ids);
      SelectRangeStep(lo, hi, ids);
      ListedRunStep(lo, hi, ids);
    }
  }

  lemma SelectRangeStep(lo: int, hi: int, ids: seq<int>)
    requires lo < hi
    ensures Select(Range(lo, hi), ids) == Pick(lo, ids) + Select(Range(lo + 1, hi), ids)
  {
    var r := Range(lo, hi);
    assert r[0] == lo && r[1..] == Range(lo + 1, hi);
  }

  lemma ListedRunStep(lo: int, hi: int, ids: seq<int>)
    requires lo < hi
    ensures ListedRun(lo, hi, ids) == Pick(lo, ids) + ListedRun(lo + 1, hi, ids)
  {
    if 1 <= lo <= |ids| {
      var last := if hi > |ids| + 1 then |ids| + 1 else hi;
      assert ListedRun(lo, hi, ids) == ids[lo - 1..last - 1];
      assert ListedRun(lo + 1, hi, ids) == ids[lo..last - 1];
      assert ids[lo - 1..last - 1] == [ids[lo - 1]] + ids[lo..last - 1];
    }
  }

  /** A token without `-` is accepted exactly when `int()` accepts it, and
      then stands for the one index `int()` reads. */
  lemma PlainToken(tok: string)
    requires '-' !in tok
    ensures ParseToken(tok).Some? <==> ParseInt(tok).Some?
    ensures ParseInt(tok).Some? ==> ParseToken(tok) == Some([ParseInt(tok).value])
  {
  }

  /** A number without a sign is a token of one index. */
  lemma NumberToken(i: nat)
    ensures ParseToken(Str(i)) == Some([i])
  {
    PlainToken(Str(i));
  }

  /** A token `a-b` whose sides hold no `-` is a range exactly when both
      sides are integers. */
  lemma DashToken(a: string, b: string)
    requires '-' !in a && '-' !in b
    ensures ParseToken(a + "-" + b) ==
              if ParseInt(a).Some? && ParseInt(b).Some?
              then Some(Range(ParseInt(a).value, ParseInt(b).value + 1))
              else None
  {
    DashSplit(a, b, a + "-" + b);
  }

  lemma DashSplit(a: string, b: string, tok: string)
    requires '-' !in a && '-' !in b && tok == a + "-" + b
    ensures '-' in tok && Split(tok, '-') == [a, b]
  {
    assert tok[|a|] == '-';
    SplitConcat(a, b, '-');
    SplitWithout(a, '-');
    SplitWithout(b, '-');
  }

  /** `a-b` on plain numbers is `range(a, b + 1)`, empty when a > b. */
  lemma RangeToken(a: nat, b: nat)
    ensures ParseToken(Str(a) + "-" + Str(b)) == Some(Range(a, b + 1))
  {
    IntsToken(Str(a), Str(b), a, b);
  }

  /** `x-y` whose sides are the integers `a` and `b` is `range(a, b + 1)`. */
  lemma IntsToken(x: string, y: string, a: int, b: int)
    requires '-' !in x && '-' !in y
    requires ParseInt(x) == Some(a) && ParseInt(y) == Some(b)
    ensures ParseToken(x + "-" + y) == Some(Range(a, b + 1))
  {
    DashToken(x, y);
    var lo, hi := ParseInt(x).value, ParseInt(y).value + 1;
    assert lo == a;
    assert hi == b + 1;
  }

  /** An answer without a comma is a single token. */
  lemma SingleToken(tok: string, ids: seq<int>)
    requires ',' !in tok
    ensures SelectList(tok, ids) ==
              if ParseToken(tok).Some? then Selected(Select(ParseToken(tok).value, ids)) else Malformed
  {
    SplitWithout(tok, ',');
    var p := ParseToken(tok);
    assert ParseTokens([tok]) == [p];
    if p.Some? {
      assert Concat([p]) == Some(p.value + []);
      assert p.value + [] == p.value;
    }
  }

  /** A single index selects its listed id, or nothing when it names no
      listed message (0 or above the count): that is not an error. */
  lemma SelectListNumber(i: nat, ids: seq<int>)
    ensures SelectList(Str(i), ids) == Selected(if 1 <= i <= |ids| then [ids[i - 1]] else [])
  {
    NatStrNoComma(i);
    SingleToken(Str(i), ids);
    NumberToken(i);
    assert Select([i], ids) == Pick(i, ids) + Select([], ids);
  }

  lemma NatStrNoComma(i: nat)
    ensures ',' !in Str(i)
  {
    assert AllDigits(Str(i));
  }

  /** A range `a-b` of plain numbers selects the listed ids at a, a + 1, ...,
      b, ascending; when a > b it selects nothing and is not an error. */
  lemma SelectListRange(a: nat, b: nat, ids: seq<int>)
    ensures SelectList(Str(a) + "-" + Str(b), ids) == Selected(ListedRun(a, b + 1, ids))
    ensures a > b ==> SelectList(Str(a) + "-" + Str(b), ids) == Selected([])
  {
    var tok := Str(a) + "-" + Str(b);
    RangeNoComma(a, b);
    SingleToken(tok, ids);
    RangeToken(a, b);
    SelectRange(a, b + 1, ids);
  }

  lemma RangeNoComma(a: nat, b: nat)
    ensures ',' !in Str(a) + "-" + Str(b)
  {
    NatStrNoComma(a);
    NatStrNoComma(b);
  }

  /** A token with more than one `-` is rejected: `1-2-3` does not unpack
      into two integers. */
  lemma ExtraDashMalformed(tok: string, ids: seq<int>)
    requires ',' !in tok && multiset(tok)['-'] > 1
    ensures SelectList(tok, ids) == Malformed
  {
    ManyDashesRejected(tok);
    SingleToken(tok, ids);
  }

  /** A token without digits and without `-` (such as `abc`, `q` or `t`)
      is not an integer. */
  lemma WordMalformed(tok: string, ids: seq<int>)
    requires ',' !in tok && '-' !in tok
    requires forall k :: 0 <= k < |tok| ==> !IsDigit(tok[k])
    ensures SelectList(tok, ids) == Malformed
  {
    SingleToken(tok, ids);
  }

  /** A range with a missing side (`-5` or `5-`) is rejected: the empty side
      is not an integer. A negative index is never dropped silently. */
  lemma MissingSideMalformed(x: string, ids: seq<int>)
    requires ',' !in x && '-' !in x
    ensures SelectList("-" + x, ids) == Malformed
    ensures SelectList(x + "-", ids) == Malformed
  {
    LeftSideMissing(x, "-" + x, ids);
    RightSideMissing(x, x + "-", ids);
  }

  lemma LeftSideMissing(x: string, tok: string, ids: seq<int>)
    requires ',' !in x && '-' !in x && tok == "-" + x
    ensures SelectList(tok, ids) == Malformed
  {
    EmptyNotInt();
    assert tok == "" + "-" + x;
    DashToken("", x);
    MissingSideNoComma(x);
    SingleToken(tok, ids);
  }

  lemma RightSideMissing(x: string, tok: string, ids: seq<int>)
    requires ',' !in x && '-' !in x && tok == x + "-"
    ensures SelectList(tok, ids) == Malformed
  {
    EmptyNotInt();
    assert tok == x + "-" + "";
    DashToken(x, "");
    MissingSideNoComma(x);
    SingleToken(tok, ids);
  }

  lemma EmptyNotInt()
    ensures ParseInt("") == None
  {
  }

  lemma MissingSideNoComma(x: string)
    requires ',' !in x
    ensures ',' !in "-" + x && ',' !in x + "-"
  {
  }

  /** A bad token on either side of a comma rejects the whole answer. */
  lemma BadSideMalformed(x: string, y: string, ids: seq<int>)
    requires SelectList(x, ids) == Malformed || SelectList(y, ids) == Malformed
    ensures SelectList(x + "," + y, ids) == Malformed
  {
    SelectListConcat(x, y, ids);
  }

  /** An empty token between two commas (`1,,2`) rejects the whole
      answer, as does an empty answer or an empty first or last token (see
      the three lemmas below). */
  lemma EmptyTokenMalformed(x: string, y: string, ids: seq<int>)
    ensures SelectList(x + ",," + y, ids) == Malformed
  {
    EmptyBetweenMalformed(x, y, x + ",," + y, ids);
  }

  lemma EmptyBetweenMalformed(x: string, y: string, s: string, ids: seq<int>)
    requires s == x + ",," + y
    ensures SelectList(s, ids) == Malformed
  {
    var t := "," + y;
    assert s == x + "," + t;
    LeadingCommaMalformed(y, ids);
    BadSideMalformed(x, t, ids);
  }

  lemma EmptyMalformed(ids: seq<int>)
    ensures SelectList("", ids) == Malformed
  {
    EmptyNotInt();
    SingleToken("", ids);
  }

  lemma TrailingCommaMalformed(x: string, ids: seq<int>)
    ensures SelectList(x + ",", ids) == Malformed
  {
    EmptyMalformed(ids);
    BadSideMalformed(x, "", ids);
    assert x + "," + "" == x + ",";
  }

  lemma LeadingCommaMalformed(y: string, ids: seq<int>)
    ensures SelectList("," + y, ids) == Malformed
  {
    EmptyMalformed(ids);
    BadSideMalformed("", y, ids);
    assert "" + "," + y == "," + y;
  }

  /** The control words are special only as the whole answer: inside a
      comma list `q` and `t` are bad tokens. */
  lemma ControlWordInListMalformed(w: string, x: string, ids: seq<int>)
    requires w in {"q", "Q", "t", "T"}
    ensures SelectList(w + "," + x, ids) == Malformed
    ensures SelectList(x + "," + w, ids) == Malformed
  {
    WordMalformed(w, ids);
    BadSideMalformed(w, x, ids);
    BadSideMalformed(x, w, ids);
  }

  /** A negative index such as `-5` is a range with an empty left side, so
      it rejects the answer instead of naming no message. */
  lemma NegativeIndexMalformed(i: int, ids: seq<int>)
    requires i < 0
    ensures SelectList(Str(i), ids) == Malformed
  {
    NatStrNoComma(-i);
    assert Str(i) == "-" + Str(-i);
    MissingSideMalformed(Str(-i), ids);
  }

  /** `t` selects what the range from 1 to the number of listed messages
      selects: every listed id, in listing order. */
  lemma AllIsFullRange(ids: seq<int>)
    ensures ParseSelection("t", ids) == SelectList(Str(1) + "-" + Str(|ids|), ids)
    ensures ParseSelection("T", ids) == Selected(ids)
  {
    assert "t"[0] !in StrSpaces;
    assert "T"[0] !in StrSpaces;
    SelectListRange(1, |ids|, ids);
    assert ListedRun(1, |ids| + 1, ids) == ids[0..|ids|] == ids;
  }

  /** Tokens are expanded in the order written and nothing is deduplicated:
      `2,1-2` selects the second, the first and again the second listed id. */
  lemma RepeatedSelectionKept(ids: seq<int>)
    requires |ids| >= 2
    ensures SelectList(Str(2) + "," + (Str(1) + "-" + Str(2)), ids) == Selected([ids[1], ids[0], ids[1]])
  {
    NumberThenRange(2, 1, 2, ids);
    FirstTwo(ids);
  }

  lemma FirstTwo(ids: seq<int>)
    requires |ids| >= 2
    ensures [ids[1]] + ListedRun(1, 3, ids) == [ids[1], ids[0], ids[1]]
  {
    assert ListedRun(1, 3, ids) == ids[0..2] == [ids[0], ids[1]];
  }

  lemma NumberThenRange(i: nat, a: nat, b: nat, ids: seq<int>)
    requires 1 <= i <= |ids|
    ensures SelectList(Str(i) + "," + (Str(a) + "-" + Str(b)), ids) ==
              Selected([ids[i - 1]] + ListedRun(a, b + 1, ids))
  {
    SelectListConcat(Str(i), Str(a) + "-" + Str(b), ids);
    SelectListNumber(i, ids);
    SelectListRange(a, b, ids);
  }

  /** Two numbers and then a range select the two numbers' ids followed by
      the range's ids. */
  lemma TwoNumbersThenRange(i: nat, j: nat, a: nat, b: nat, ids: seq<int>)
    requires 1 <= i <= |ids| && 1 <= j <= |ids|
    ensures SelectList(Str(i) + "," + (Str(j) + "," + (Str(a) + "-" + Str(b))), ids) ==
              Selected([ids[i - 1], ids[j - 1]] + ListedRun(a, b + 1, ids))
  {
    TwoNumbersThenRangeAs(i, j, a, b, Str(j) + "," + (Str(a) + "-" + Str(b)), ids);
  }

  lemma TwoNumbersThenRangeAs(i: nat, j: nat, a: nat, b: nat, rest: string, ids: seq<int>)
    requires 1 <= i <= |ids| && 1 <= j <= |ids|
    requires rest == Str(j) + "," + (Str(a) + "-" + Str(b))
    ensures SelectList(Str(i) + "," + rest, ids) ==
              Selected([ids[i - 1], ids[j - 1]] + ListedRun(a, b + 1, ids))
  {
    var run := ListedRun(a, b + 1, ids);
    NumberThenRange(j, a, b, ids);
    NumberThenList(i, rest, [ids[j - 1]] + run, ids);
    PairThen(ids[i - 1], ids[j - 1], run);
  }

  /** Regrouping two ids in front of a run; kept apart because the solver
      runs out of resource on it inside the lemma above. */
  lemma PairThen(x: int, y: int, run: seq<int>)
    ensures [x] + ([y] + run) == [x, y] + run
  {
  }

  /** A listed index in front of a list that selects `sel` adds its id in
      front of `sel`. */
  lemma NumberThenList(i: nat, rest: string, sel: seq<int>, ids: seq<int>)
    requires 1 <= i <= |ids| && SelectList(rest, ids) == Selected(sel)
    ensures SelectList(Str(i) + "," + rest, ids) == Selected([ids[i - 1]] + sel)
  {
    SelectListConcat(Str(i), rest, ids);
    SelectListNumber(i, ids);
  }

  /** The example the prompt itself offers, `10,15,18-30`: the tenth and
      the fifteenth listed ids, then the eighteenth to the thirtieth in
      listing order. */
  lemma PromptExample(ids: seq<int>)
    requires |ids| >= 30
    ensures SelectList("10,15,18-30", ids) == Selected([ids[9], ids[14]] + ids[17..30])
    ensures ParseSelection("10,15,18-30", ids) == Selected([ids[9], ids[14]] + ids[17..30])
  {
    PromptExampleAt(10, 15, 18, 30, ids);
    PromptAnswer("10,15,18-30", ids);
  }

  /** The example answer has no surrounding blanks and is no control word. */
  lemma PromptAnswer(answer: string, ids: seq<int>)
    requires answer == "10,15,18-30"
    ensures ParseSelection(answer, ids) == SelectList(answer, ids)
  {
    assert answer[0] == '1' && answer[|answer| - 1] == '0';
    assert Strip(answer, StrSpaces) == answer;
    assert |answer| != 1;
    ParseSelectionList(answer, ids);
  }

  lemma PromptExampleAt(i: nat, j: nat, a: nat, b: nat, ids: seq<int>)
    requires i == 10 && j == 15 && a == 18 && b == 30 && |ids| >= 30
    ensures SelectList("10,15,18-30", ids) == Selected([ids[9], ids[14]] + ids[17..30])
  {
    TwoNumbersThenRange(i, j, a, b, ids);
    assert ListedRun(a, b + 1, ids) == ids[17..30];
    PromptExampleText(i, j, a, b);
  }

  /** The decimal text of the prompt's example. */
  lemma PromptExampleText(i: nat, j: nat, a: nat, b: nat)
    requires i == 10 && j == 15 && a == 18 && b == 30
    ensures Str(i) + "," + (Str(j) + "," + (Str(a) + "-" + Str(b))) == "10,15,18-30"
  {
    TwoDigits(i, "10");
    TwoDigits(j, "15");
    TwoDigits(a, "18");
    TwoDigits(b, "30");
    Glue("10", "15", "18", "30");
  }

  /** Joins the four printed numbers; kept apart because the solver runs out
      of resource on the literal texts inside the lemma above. */
  lemma Glue(w: string, x: string, y: string, z: string)
    requires w == "10" && x == "15" && y == "18" && z == "30"
    ensures w + "," + (x + "," + (y + "-" + z)) == "10,15,18-30"
  {
  }

  /** The first `n` answers are all malformed, so each made the prompt
      ask again. */
  predicate MalformedBefore(answers: seq<string>, n: nat, ids: seq<int>)
    requires n <= |answers|
  {
    forall k :: 0 <= k < n ==> ParseSelection(answers[k], ids).Malformed?
  }

  /** The prompt loop of `main`: answers are read one after another until
      one quits or selects; a malformed answer asks again. `answers` stands
      for what the operator types; `None` means the answers ran out before
      a decision (the program would still be waiting). `used` counts the
      answers read. */
  method AwaitSelection(answers: seq<string>, ids: seq<int>) returns (decision: Option<Choice>, used: nat)
    ensures used <= |answers|
    ensures decision.None? ==> used == |answers| && MalformedBefore(answers, |answers|, ids)
    ensures decision.Some? ==>
              && 0 < used
              && MalformedBefore(answers, used - 1, ids)
              && !decision.value.Malformed?
              && decision.value == ParseSelection(answers[used - 1], ids)
  {
    used := 0;
    while used < |answers|
      invariant used <= |answers|
      invariant MalformedBefore(answers, used, ids)
    {
      var choice := ParseSelection(answers[used], ids);
      if !choice.Malformed? {
        return Some(choice), used + 1;
      }
      MalformedBeforeStep(answers, used, ids);
      used := used + 1;
    }
    decision := None;
  }

  /** One more malformed answer extends the malformed run. */
  lemma MalformedBeforeStep(answers: seq<string>, n: nat, ids: seq<int>)
    requires n < |answers| && MalformedBefore(answers, n, ids)
    requires ParseSelection(answers[n], ids).Malformed?
    ensures MalformedBefore(answers, n + 1, ids)
  {
  }
}

=== FILE: text.dfy ===
/**
 The string builtins the program leans on, on ASCII text: `str.startswith`,
 the `in` operator on strings, `str.strip()`, `str.split(sep)` and the
 `[-1]` element of a split.
 */
module Text {

  /** The characters `str.strip()` removes, restricted to ASCII: tab, line
      feed, vertical tab, form feed, carriage return, the four information
      separators 0x1C-0x1F, and space. */
  const StrSpaces: set<char> :=
    {'\t', '\n', '\U{000B}', '\U{000C}', '\r', '\U{001C}', '\U{001D}', '\U{001E}', '\U{001F}', ' '}

  /** `s.startswith(p)`. */
  predicate StartsWith(s: string, p: string) {
    |p| <= |s| && s[..|p|] == p
  }

  /** `sub` occurs in `s` at position `i`. */
  predicate OccursAt(s: string, sub: string, i: int) {
    0 <= i && i + |sub| <= |s| && s[i..i + |sub|] == sub
  }

  /** `sub in s`. */
  predicate Contains(s: string, sub: string) {
    exists i | 0 <= i <= |s| - |sub| :: OccursAt(s, sub, i)
  }

  /** Drops the leading characters that belong to `ws`. */
  function TrimStart(s: string, ws: set<char>): (r: string)
    ensures |r| <= |s| && r == s[|s| - |r|..]
    ensures forall k :: 0 <= k < |s| - |r| ==> s[k] in ws
    ensures r == [] || r[0] !in ws
  {
    if |s| > 0 && s[0] in ws then TrimStart(s[1..], ws) else s
  }

  /** Drops the trailing characters that belong to `ws`. */
  function TrimEnd(s: string, ws: set<char>): (r: string)
    ensures |r| <= |s| && r == s[..|r|]
    ensures forall k :: |r| <= k < |s| ==> s[k] in ws
    ensures r == [] || r[|r| - 1] !in ws
  {
    if |s| > 0 && s[|s| - 1] in ws then TrimEnd(s[..|s| - 1], ws) else s
  }

  /** `s.strip()` when `ws` is the whitespace set: the longest infix of `s`
      that neither starts nor ends with a character of `ws`, obtained by
      removing only characters of `ws` from the two ends. */
  function Strip(s: string, ws: set<char>): (r: string)
    ensures |r| <= |s|
    ensures r == [] || (r[0] !in ws && r[|r| - 1] !in ws)
    ensures (s == [] || (s[0] !in ws && s[|s| - 1] !in ws)) ==> r == s
  {
    var t := TrimStart(s, ws);
    TrimEnd(t, ws)
  }

  /** `strip()` leaves nothing only of text made of whitespace alone. */
  lemma StripEmptyOnlyIfBlank(s: string, ws: set<char>)
    ensures Strip(s, ws) == [] ==> forall k :: 0 <= k < |s| ==> s[k] in ws
  {
    var t := TrimStart(s, ws);
    if |t| > 0 {
      assert t[0] !in ws;
      assert TrimEnd(t, ws) != [];
    }
  }

  /** `Strip` keeps a contiguous run of `s`. */
  lemma StripInfix(s: string, ws: set<char>)
    ensures exists i :: OccursAt(s, Strip(s, ws), i)
  {
    var t := TrimStart(s, ws);
    var r := TrimEnd(t, ws);
    var i := |s| - |t|;
    assert r == Strip(s, ws);
    assert t == s[i..] && r == t[..|r|];
    assert OccursAt(s, r, i);
  }

  /** Glues `parts` back together with `sep` between neighbours:
      `sep.join(parts)`. */
  function Join(parts: seq<string>, sep: char): string
    requires |parts| > 0
    decreases |parts|
  {
    if |parts| == 1 then parts[0] else parts[0] + [sep] + Join(parts[1..], sep)
  }

  /** `s.split(sep)` for a one-character separator: the pieces between
      separators, including empty ones, always at least one. */
  function Split(s: string, sep: char): (parts: seq<string>)
    ensures |parts| > 0
    ensures forall k :: 0 <= k < |parts| ==> sep !in parts[k]
    ensures Join(parts, sep) == s
  {
    if |s| == 0 then [""]
    else
      var rest := Split(s[1..], sep);
      if s[0] == sep then
        assert ([""] + rest)[1..] == rest;
        [""] + rest
      else
        var parts := [[s[0]] + rest[0]] + rest[1..];
        assert |rest| > 1 ==> parts[1..] == rest[1..];
        parts
  }

  /** The last piece of `s.split(sep)`, i.e. `s.split(sep)[-1]`: the part of
      `s` after its last `sep`, or all of `s` when it has none. */
  function AfterLast(s: string, sep: char): (r: string)
    ensures |r| <= |s| && r == s[|s| - |r|..]
    ensures sep !in r
    ensures |r| == |s| || s[|s| - |r| - 1] == sep
  {
    var parts := Split(s, sep);
    LastPieceIsSuffix(s, sep);
    parts[|parts| - 1]
  }

  lemma {:induction false} LastPieceIsSuffix(s: string, sep: char)
    ensures var parts := Split(s, sep);
            var r := parts[|parts| - 1];
            |r| <= |s| && r == s[|s| - |r|..] && (|r| == |s| || s[|s| - |r| - 1] == sep)
    decreases |s|
  {
    if |s| > 0 {
      LastPieceIsSuffix(s[1..], sep);
      var rest := Split(s[1..], sep);
      var parts := Split(s, sep);
      var last := rest[|rest| - 1];
      if s[0] == sep || |rest| > 1 {
        assert parts[|parts| - 1] == last;
        assert s[|s| - |last|..] == s[1..][|s| - 1 - |last|..];
      } else {
        assert Join(rest, sep) == rest[0];
        assert parts[|parts| - 1] == [s[0]] + rest[0] == s;
      }
    }
  }

  /** Splitting undoes joining when no part holds the separator. */
  lemma {:induction false} SplitJoin(parts: seq<string>, sep: char)
    requires |parts| > 0
    requires forall k :: 0 <= k < |parts| ==> sep !in parts[k]
    ensures Split(Join(parts, sep), sep) == parts
    decreases |parts|
  {
    if |parts| == 1 {
      SplitWithout(parts[0], sep);
    } else {
      SplitJoin(parts[1..], sep);
      SplitPrefix(parts[0], Join(parts[1..], sep), sep);
      assert [parts[0]] + parts[1..] == parts;
    }
  }

  /** One more piece than there are separators. */
  lemma {:induction false} SplitCount(s: string, sep: char)
    ensures |Split(s, sep)| == multiset(s)[sep] + 1
    decreases |s|
  {
    if |s| > 0 {
      SplitCount(s[1..], sep);
      assert s == [s[0]] + s[1..];
      assert multiset(s) == multiset{s[0]} + multiset(s[1..]);
    }
  }

  /** A string without the separator is a single piece. */
  lemma SplitWithout(s: string, sep: char)
    requires sep !in s
    ensures Split(s, sep) == [s]
  {
    SplitCount(s, sep);
    assert multiset(s)[sep] == 0;
  }

  /** Splitting `a + [sep] + b` splits off `a` as the first piece when `a`
      has no separator. */
  lemma {:induction false} SplitPrefix(a: string, b: string, sep: char)
    requires sep !in a
    ensures Split(a + [sep] + b, sep) == [a] + Split(b, sep)
    decreases |a|
  {
    if |a| == 0 {
      assert a + [sep] + b == [sep] + b;
      assert ([sep] + b)[1..] == b;
    } else {
      SplitPrefix(a[1..], b, sep);
      var s := a + [sep] + b;
      assert s[0] == a[0] && s[1..] == a[1..] + [sep] + b;
      assert [a[0]] + a[1..] == a;
    }
  }

  /** Joining two lists of pieces joins their joins. */
  lemma {:induction false} JoinAppend(xs: seq<string>, ys: seq<string>, sep: char)
    requires |xs| > 0 && |ys| > 0
    ensures Join(xs + ys, sep) == Join(xs, sep) + [sep] + Join(ys, sep)
    decreases |xs|
  {
    if |xs| == 1 {
      assert (xs + ys)[1..] == ys;
    } else {
      JoinAppend(xs[1..], ys, sep);
      assert (xs + ys)[1..] == xs[1..] + ys;
    }
  }

  /** `(a + sep + b).split(sep) == a.split(sep) + b.split(sep)`. */
  lemma SplitConcat(a: string, b: string, sep: char)
    ensures Split(a + [sep] + b, sep) == Split(a, sep) + Split(b, sep)
  {
    var pa, pb := Split(a, sep), Split(b, sep);
    JoinAppend(pa, pb, sep);
    assert forall k :: 0 <= k < |pa + pb| ==> sep !in (pa + pb)[k];
    SplitJoin(pa + pb, sep);
  }

  /** `Contains` finds every occurrence. */
  lemma OccursContains(s: string, sub: string, i: int)
    requires OccursAt(s, sub, i)
    ensures Contains(s, sub)
  {
  }

  /** The part after the last `sep` of `p + [sep] + q` is `q` when `q` holds
      no `sep`. */
  lemma AfterLastOf(p: string, q: string, sep: char)
    requires sep !in q
    ensures AfterLast(p + [sep] + q, sep) == q
  {
    var s := p + [sep] + q;
    var r := AfterLast(s, sep);
    assert s[|s| - |q|..] == q;
    assert s[|p|] == sep;
    assert forall k :: |s| - |r| <= k < |s| ==> s[k] == r[k - (|s| - |r|)];
    assert |r| <= |q|;
  }
}
